=== FILE: README.md ===
# Iteration, string and OOP patterns: a Dafny model

This project models the small pure core of a collection of Go and Python
cheat-sheet snippets:

- the Go and Python iteration and string helpers, which mirror each other:
  squaring a list, walking two lists in parallel, a counting loop,
  reversing, split-then-join, replace, trim and find;
- the line filter of the Python log monitor (`check_logs_for_errors`);
- the object-oriented toy classes: a bank account, an overridden method,
  an abstract method's implementation, composition and a singleton.

Strings are `seq<char>` (Unicode scalar values). Go's `int` is modelled as a
64-bit integer with explicit two's-complement wrap-around. Python integers
are unbounded. Helpers that print return the sequence of items they would
print.

Modules:

- `Search`: occurrence, containment and leftmost find.
- `Splitting`: split, join and replace-all. This is the shared semantics of
  `strings.Split`/`Join`/`ReplaceAll` and `str.split`/`join`/`replace` for a
  non-empty separator, plus the empty-separator behaviours.
- `Whitespace`: trimming. Go and Python differ only in their whitespace set.
- `Utf8`: UTF-8 byte lengths, for Go's byte offsets.
- `PyPatterns` and `GoPatterns`: the helpers of each language. The Python
  functions serve as reference definitions. Each Go helper that has a Python
  counterpart states in its postcondition that it agrees with the Python
  function, or says where the two differ. `GoPatterns.IterateLines` has no
  modelled counterpart.
- `LogScan`: `check_logs_for_errors`, with the file read abstracted to an
  existence flag and the list `readlines()` returns.
- `OopPatterns`: the classes as immutable values. A mutating call returns
  the new state.

Where the languages differ, the model keeps both behaviours:

- Split on an empty delimiter: Go splits into single runes; Python raises
  `ValueError("empty separator")`, which the model returns as an `Err`.
- Find: Go's `strings.Index` returns a byte offset; Python's `str.find`
  returns a code-point index. They agree on ASCII text.
- Trim: Go's `strings.TrimSpace` does not treat U+001C..U+001F as
  whitespace; Python's `str.strip()` does.
- Squaring: Go's `n * n` wraps at 64 bits (squaring 2^32 gives 0). Python's
  `n ** 2` does not wrap.

## Model

| member | source | states |
|---|---|---|
| Search.Find | python_patterns/iterating_string_manipulation_patterns.py:76-77 | The result is -1 exactly when the substring does not occur, and otherwise the lowest index at which it occurs. |
| Search.ContainsTransitive | python_patterns/error_email_patterns.py:66 | a keyword inside a line that occurs in a text also occurs in that text (used to relate the summary to the caller's keyword test) |
| Splitting.Split | python_patterns/iterating_string_manipulation_patterns.py:54 | splitting on a non-empty separator gives at least one piece; it gives exactly `[s]` if and only if the separator does not occur |
| Splitting.Join | python_patterns/iterating_string_manipulation_patterns.py:55 | the join starts with the first part; its partners SplitRoundTrip and SplitJoinInverse make it the inverse of `Split` |
| Splitting.JoinAppend | go_patterns/iterating_string_manipulation_patterns.go:73 | joining the concatenation of two non-empty lists is the join of the first, one separator, and the join of the second |
| Splitting.Explode | go_patterns/iterating_string_manipulation_patterns.go:72 | Go's split on an empty separator gives one piece per rune, the `i`-th piece holding exactly the `i`-th rune |
| Splitting.InsertAround | python_patterns/iterating_string_manipulation_patterns.py:69 | inserting nothing leaves `s` unchanged (the empty-`old` path of replace); its partner InsertAroundGaps says where the copies go |
| Splitting.InsertAroundGaps | go_patterns/iterating_string_manipulation_patterns.go:87 | replacing an empty `old` puts one copy of `new` before the first rune, between every two neighbouring runes and after the last: the runes of `s`, framed by two empty pieces, joined with `new` (so "ab" with "X" gives "XaXbX") |
| Splitting.InsertAroundLength | go_patterns/iterating_string_manipulation_patterns.go:87 | replacing an empty `old` makes the result longer by `(len(s) + 1) * len(new)` |
| Splitting.ReplaceAll | go_patterns/iterating_string_manipulation_patterns.go:86-88 | `s` comes back unchanged when a non-empty target does not occur, or when target and replacement are equal |
| Splitting.SplitJoinIsReplace | python_patterns/iterating_string_manipulation_patterns.py:53-56 | splitting on `sep` and joining with `repl` equals replacing every non-overlapping `sep` by `repl`, scanning left to right |
| Splitting.SplitRoundTrip | python_patterns/iterating_string_manipulation_patterns.py:53-56 | joining the pieces with the separator they were cut at gives back `s` |
| Splitting.SplitJoinInverse | go_patterns/iterating_string_manipulation_patterns.go:71-75 | the other round trip: when no part contains a one-character separator, splitting on it undoes joining with it |
| Splitting.SplitFirst | python_patterns/iterating_string_manipulation_patterns.py:54 | at the leftmost separator, the split is the text before it followed by the split of the text after it |
| Splitting.ReplaceFirst | python_patterns/iterating_string_manipulation_patterns.py:68-69 | at the leftmost occurrence, replace-all is the text before it, then the replacement, then replace-all of the rest |
| Splitting.ReplaceOnce | python_patterns/iterating_string_manipulation_patterns.py:68-69 | a single occurrence that nothing earlier could start is the only thing replaced |
| Splitting.SplitPiecesFree | go_patterns/iterating_string_manipulation_patterns.go:72 | no piece of a split contains the separator |
| Splitting.ExplodeRoundTrip | go_patterns/iterating_string_manipulation_patterns.go:72 | splitting on the empty separator gives one rune per piece, and these concatenate back to `s` |
| Splitting.JoinContainsPart | python_patterns/error_email_patterns.py:39 | every part occurs in the joined string |
| Whitespace.Strip | python_patterns/iterating_string_manipulation_patterns.py:72-73 | the result is a contiguous slice of `s`; everything cut off is whitespace; neither end of the result is whitespace |
| Whitespace.TrimUnique | python_patterns/iterating_string_manipulation_patterns.py:72-73 | at most one slice meets those trim conditions |
| Whitespace.StripCharacterized | go_patterns/iterating_string_manipulation_patterns.go:91-93 | any slice that meets the trim conditions is the result of the trim |
| Whitespace.StripIdempotent | python_patterns/iterating_string_manipulation_patterns.py:72-73 | trimming a trimmed string changes nothing |
| Whitespace.StripFlavoursAgree | go_patterns/iterating_string_manipulation_patterns.go:91-93 | `strings.TrimSpace` and `str.strip()` agree on text without U+001C..U+001F |
| Utf8.Length | go_patterns/iterating_string_manipulation_patterns.go:96-98 | the UTF-8 length lies between 1 and 4 bytes per code point, and equals the code-point count on ASCII text |
| PyPatterns.SquareNumbers | python_patterns/iterating_string_manipulation_patterns.py:20-21 | the result has the input's length, and each element is the square of the input element at that position |
| PyPatterns.DrainRest | python_patterns/iterating_string_manipulation_patterns.py:34-35 | a generator that has consumed `c` elements yields exactly the list comprehension's squares from index `c` on |
| PyPatterns.GeneratorMatchesList | python_patterns/iterating_string_manipulation_patterns.py:34-35 | looping over `generator_squares` yields exactly `square_numbers`: the same length and the same values in the same order |
| PyPatterns.IterateZip | python_patterns/iterating_string_manipulation_patterns.py:29-31 | `min(len(list1), len(list2))` pairs, the `i`-th pairing the `i`-th items |
| PyPatterns.IterateWhile | python_patterns/iterating_string_manipulation_patterns.py:38-42 | the counts 0 .. limit-1 in order; nothing when `limit <= 0` |
| PyPatterns.ReverseString | python_patterns/iterating_string_manipulation_patterns.py:49-50 | the result has the length of `s`, and position `k` holds the character at position `len(s) - 1 - k` |
| PyPatterns.ReverseInvolution | python_patterns/iterating_string_manipulation_patterns.py:49-50 | reversing keeps the length, mirrors every position, and reversing twice gives back `s` |
| PyPatterns.SplitAndJoin | python_patterns/iterating_string_manipulation_patterns.py:53-56 | `ValueError("empty separator")` exactly when the delimiter is empty; otherwise the parts join back to `s`, they are `[s]` if and only if the delimiter does not occur, no part contains the delimiter, the first part ends at the leftmost delimiter and the rest are the split of what follows it, `joined` is the parts joined with "-", and `joined` is `s` with every delimiter replaced by "-" |
| PyPatterns.AdjacentDelimitersLeaveEmptyPiece | python_patterns/iterating_string_manipulation_patterns.py:53-56 | when the leftmost delimiter is directly followed by another, the second piece is empty and at least three pieces come back |
| PyPatterns.ReplaceSubstring | python_patterns/iterating_string_manipulation_patterns.py:68-69 | `s` comes back unchanged when a non-empty `old` does not occur or when `old == new` (its partner, Splitting.SplitJoinIsReplace, equates the replacement with splitting on `old` and joining with `new`) |
| PyPatterns.StripWhitespace | python_patterns/iterating_string_manipulation_patterns.py:72-73 | the result is a trim of `s`, and stripping it again changes nothing |
| PyPatterns.FindSubstring | python_patterns/iterating_string_manipulation_patterns.py:76-77 | -1 exactly when the substring is absent; otherwise the lowest index where it occurs |
| PyPatterns.SquaresExample | python_patterns/iterating_string_manipulation_patterns.py:105 | `[1, 2, 3, 4, 5]` squares to `[1, 4, 9, 16, 25]` |
| PyPatterns.SplitAndJoinExample | python_patterns/iterating_string_manipulation_patterns.py:129 | "Python is fun" gives `["Python", "is", "fun"]` and "Python-is-fun" |
| PyPatterns.SplitKeepsEmptyPieces | python_patterns/iterating_string_manipulation_patterns.py:53-56 | consecutive delimiters keep the empty piece between them: "a  b" gives `["a", "", "b"]` and "a--b" |
| PyPatterns.ReplaceExample | python_patterns/iterating_string_manipulation_patterns.py:137 | "Hello, World!" (written as "Hello, " + "World" + "!") with "World" replaced by "Python" is "Hello, Python!" |
| PyPatterns.StripExample | python_patterns/iterating_string_manipulation_patterns.py:140 | "   Lots of space   " strips to "Lots of space" |
| PyPatterns.FindExample | python_patterns/iterating_string_manipulation_patterns.py:143 | "World" is found at index 7 of "Hello, World!" |
| GoPatterns.Wrap | go_patterns/iterating_string_manipulation_patterns.go:25 | the 64-bit result is congruent to the exact product modulo 2^64, and equals it when it fits |
| GoPatterns.SquareFits | go_patterns/iterating_string_manipulation_patterns.go:25 | the square of any number whose magnitude is at most 3037000499 fits in 64 bits |
| GoPatterns.SquareOverflowExample | go_patterns/iterating_string_manipulation_patterns.go:25 | squaring 2^32 wraps to 0 in Go, while Python's square is 2^64 |
| GoPatterns.SquaresExact | go_patterns/iterating_string_manipulation_patterns.go:22-28 | within that range, wrapping leaves every square unchanged |
| GoPatterns.SquareNumbers | go_patterns/iterating_string_manipulation_patterns.go:22-28 | same length; each element is the wrapped square of the input element; equal to `square_numbers` when no square overflows |
| GoPatterns.IterateZip | go_patterns/iterating_string_manipulation_patterns.go:38-46 | exactly `min(len(slice1), len(slice2))` index-aligned pairs, in increasing index order, as Python's `zip` gives |
| GoPatterns.IterateWhile | go_patterns/iterating_string_manipulation_patterns.go:49-55 | the counts 0 .. limit-1 in order, nothing when `limit <= 0`, as Python's loop gives |
| GoPatterns.ReverseString | go_patterns/iterating_string_manipulation_patterns.go:62-68 | the two-pointer swap keeps the rune count, puts `out[k] == in[n-1-k]`, and agrees with Python's `s[::-1]` |
| GoPatterns.SplitAndJoin | go_patterns/iterating_string_manipulation_patterns.go:71-75 | for a non-empty delimiter, the parts join back to `s`, none contains the delimiter, `joined` is `s` with every delimiter replaced by "-", and the result equals Python's; for an empty delimiter, one part per rune, each holding that rune, concatenating back to `s`; in every case `joined` is the parts joined with "-" |
| GoPatterns.ReplaceSubstring | go_patterns/iterating_string_manipulation_patterns.go:86-88 | `s` is unchanged when `old == new` or when a non-empty `old` does not occur; the result always equals Python's `replace` |
| GoPatterns.StripWhitespace | go_patterns/iterating_string_manipulation_patterns.go:91-93 | the result is the trim of `s` under Go's whitespace set (a slice of `s` with only whitespace cut off and neither end whitespace), and it equals Python's `strip()` on text without U+001C..U+001F |
| GoPatterns.FindSubstring | go_patterns/iterating_string_manipulation_patterns.go:96-98 | -1 exactly when absent; otherwise the byte offset of the leftmost occurrence; on ASCII text this equals Python's `find` |
| GoPatterns.IterateLines | go_patterns/iterating_string_manipulation_patterns.go:107-112 | the printed lines join back with "\n" to the input, and none contains a newline |
| GoPatterns.SplitAndJoinExample | go_patterns/iterating_string_manipulation_patterns.go:152 | "Go is awesome" gives `["Go", "is", "awesome"]` and "Go-is-awesome" |
| GoPatterns.ReplaceExample | go_patterns/iterating_string_manipulation_patterns.go:162 | "Hello, World!" (written as "Hello, " + "World" + "!") with "World" replaced by "Gopher" is "Hello, Gopher!" |
| GoPatterns.FindExample | go_patterns/iterating_string_manipulation_patterns.go:168 | "World" is found at byte offset 7 of "Hello, World!" |
| LogScan.ReadLines | python_patterns/error_email_patterns.py:35-36 | `readlines()` gives lines that concatenate back to the file's text; each is a single non-empty line, and every line but the last ends with its "\n" |
| LogScan.ErrorLines | python_patterns/error_email_patterns.py:38 | never more lines than the input; every selected line is an input line that mentions "CRITICAL" or "ERROR"; every such input line is selected |
| LogScan.ErrorLinesAppend | python_patterns/error_email_patterns.py:38 | selection keeps the original order: filtering a concatenation is concatenating the filtered parts |
| LogScan.ErrorLinesIdempotent | python_patterns/error_email_patterns.py:38 | filtering the selection again leaves it unchanged |
| LogScan.ErrorLinesFirst | python_patterns/error_email_patterns.py:38 | the selection is non-empty and starts with the first line that mentions a keyword |
| LogScan.CheckLogsForErrors | python_patterns/error_email_patterns.py:30-39 | "No log file found." exactly when the file is missing; "No critical errors detected." when no line matches; otherwise exactly the matching lines joined by "\n", each with its own terminator; and whenever the file exists, the first matching line, wherever it is, is a prefix of the summary |
| LogScan.FixedMessagesQuiet | python_patterns/error_email_patterns.py:32-39 | neither fixed message contains "CRITICAL" or "ERROR" |
| LogScan.SummaryMentionsErrors | python_patterns/error_email_patterns.py:39 | a join of error lines contains a keyword |
| LogScan.AlertIffErrors | python_patterns/error_email_patterns.py:65-66 | the caller's alert test fires exactly when the file exists and some line mentions a keyword |
| LogScan.CheckLogFile | python_patterns/error_email_patterns.py:30-39 | on a file's text: "No log file found." when the file is missing, "No critical errors detected." when it exists and its text mentions neither keyword, and otherwise the matching lines, each with its "\n", joined by "\n"; the caller's alert test fires on the summary exactly when the file exists and its text mentions a keyword |
| LogScan.ErrorsAreInLines | python_patterns/error_email_patterns.py:35-38 | the file's text mentions a keyword exactly when one of the lines `readlines()` gives does |
| LogScan.KeywordWithinLine | python_patterns/error_email_patterns.py:36-38 | a keyword without newlines found in the text lies inside one line: it cannot straddle a line terminator |
| OopPatterns.GetBalance | python_patterns/oop_paterns.py:25-27 | reads the balance; what it reports is stated by NewBankAccount, Deposit and OnlyDepositsMoveBalance |
| OopPatterns.NewBankAccount | python_patterns/oop_paterns.py:17-19 | a new account reports the constructor's balance and keeps its account number |
| OopPatterns.Deposit | python_patterns/oop_paterns.py:21-23 | the balance rises by exactly `amount`, with no validation; the account number stays |
| OopPatterns.OnlyDepositsMoveBalance | python_patterns/oop_paterns.py:16-27 | after any sequence of deposits and `get_balance` calls, the balance is the start plus the deposits, and the account number never changes |
| OopPatterns.DepositExample | python_patterns/oop_paterns.py:74-76 | 1000 plus a deposit of 500 reports 1500 |
| OopPatterns.MakeAnimalSpeak | python_patterns/oop_paterns.py:30-40 | "Woof!" exactly for a `Dog`, "Some sound" exactly for a plain `Animal` |
| OopPatterns.StartCar | python_patterns/oop_paterns.py:53-62 | `start_car()` returns "Engine started", which is what the engine it holds returns from `start()` |
| OopPatterns.DispatchExamples | python_patterns/oop_paterns.py:78-85 | `make_animal_speak(Dog())` is "Woof!", `Car().move()` is "Car is moving", and `CarComposition().start_car()` is "Engine started" |
| OopPatterns.Construct | python_patterns/oop_paterns.py:65-71 | after a construction the class holds the returned instance; when an instance already exists, it is returned and the class is unchanged; at most one identity is allocated |
| OopPatterns.AllConstructionsSame | python_patterns/oop_paterns.py:65-71 | `n` constructions in a row all return the first one's instance and allocate at most one object |
| OopPatterns.SingletonExample | python_patterns/oop_paterns.py:87-89 | two constructions from a fresh class give the same instance (`s1 is s2`) |

## Left out

- `regexFind` / `regex_find`: these need a regular-expression engine (RE2, Python `re`).
- `changeCase` / `change_case`: these depend on Unicode case tables.
- `iterate_lines`, `iterate_words` and `iterateWords`: `splitlines()`, `split()` and `strings.Fields` use library-specific line-boundary and whitespace sets. Go's `iterateLines` is modelled.
- `iterateSlice`, `iterate_list`, `iterateMap` and `iterate_dictionary`: these only print. Go's map iteration order is also unspecified.
- `send_email_alert`, the logging setup, file handling, JSON/HTTP, XML/YAML, the data-science and pytest snippets: network, filesystem and foreign-library I/O, or floating point.
- The `os.path.exists` test and `open(...).readlines()` in `check_logs_for_errors`: they become the `fileExists` flag and the `lines` parameter. `LogScan.ReadLines` models `readlines()` on text whose line ends are already "\n"; universal-newline translation of "\r\n" and "\r" is not modelled. The model assumes the read succeeds whenever the file exists: the exception Python raises for a directory, a file without read permission or bytes that do not decode is not modelled.
- The abstract `Vehicle` base class: Python refuses to instantiate it, and the model has only its concrete subclass `Car`.
- Formatted output: printing helpers return the printed items, not the formatted text.
- Go strings holding invalid UTF-8: `[]rune(s)` turns each bad byte into U+FFFD, but here Go strings are sequences of code points.
- GoPatterns.SquareNumbers: `int` is taken to be 64 bits wide. On a 32-bit platform it wraps at 2^32.
- The whitespace sets of `unicode.IsSpace` and `str.isspace`, and the UTF-8 widths, are written down from those libraries' documented behaviour. Their code is not part of this model.
- Number types: balances and list elements are integers. Floats passed to `deposit` or `square_numbers` are not modelled.
- Lone surrogates: a Python `str` can hold code points U+D800..U+DFFF, but Dafny's `char` holds only Unicode scalar values, so such strings are not modelled.
- Object identity and allocation: the singleton's identities are a counter held in the class state.

=== FILE: go_patterns.dfy ===
/** The iteration and string helpers of the Go cheat sheet. Go's `int` is
    taken to be 64 bits wide; printing helpers return the items they would
    print, in order. The Python versions serve as reference definitions. */
module GoPatterns {
  import opened Search
  import opened Splitting
  import opened Whitespace
  import opened Results
  import Utf8
  import PyPatterns

  /** Go's `int` on a 64-bit platform. */
  type Int64 = x: int | -0x8000_0000_0000_0000 <= x < 0x8000_0000_0000_0000

  /** The largest magnitude whose square still fits in an `Int64`. */
  const MaxExactSquareRoot: int := 3_037_000_499

  /** Two's-complement wrap-around of an exact result into `Int64`: the one
      value in range that is congruent to `x` modulo 2^64. */
  function Wrap(x: int): (r: Int64)
    ensures (x - r) % 0x1_0000_0000_0000_0000 == 0
    ensures -0x8000_0000_0000_0000 <= x < 0x8000_0000_0000_0000 ==> r == x
  {
    (x + 0x8000_0000_0000_0000) % 0x1_0000_0000_0000_0000 - 0x8000_0000_0000_0000
  }

  /** A square of a number no larger in magnitude than `MaxExactSquareRoot`
      does not overflow. */
  lemma SquareFits(n: int)
    requires -MaxExactSquareRoot <= n <= MaxExactSquareRoot
    ensures 0 <= n * n < 0x8000_0000_0000_0000
  {
    var m := if n < 0 then -n else n;
    assert n * n == m * m;
    MulMonotonic(m, m, MaxExactSquareRoot);
    MulMonotonic(MaxExactSquareRoot, m, MaxExactSquareRoot);
    assert MaxExactSquareRoot * MaxExactSquareRoot < 0x8000_0000_0000_0000;
  }

  lemma MulMonotonic(a: int, b: int, c: int)
    requires 0 <= a && b <= c
    ensures a * b <= a * c
  {
  }

  /** Squaring 2^32 wraps to 0, where Python's unbounded `n ** 2` does not. */
  lemma SquareOverflowExample()
    ensures Wrap(0x1_0000_0000 * 0x1_0000_0000) == 0
    ensures PyPatterns.SquareNumbers([0x1_0000_0000]) == [0x1_0000_0000_0000_0000]
  {
  }

  /** Within that range, wrapping leaves every square unchanged. */
  lemma SquaresExact(numbers: seq<int>)
    requires forall k | 0 <= k < |numbers| :: -MaxExactSquareRoot <= numbers[k] <= MaxExactSquareRoot
    ensures forall k | 0 <= k < |numbers| :: Wrap(numbers[k] * numbers[k]) == numbers[k] * numbers[k]
  {
    forall k | 0 <= k < |numbers|
      ensures Wrap(numbers[k] * numbers[k]) == numbers[k] * numbers[k]
    {
      SquareFits(numbers[k]);
    }
  }

  /** `squareNumbers`: a fresh slice of the same length holding each element
      times itself, with 64-bit wrap-around. */
  method SquareNumbers(numbers: seq<Int64>) returns (squares: seq<Int64>)
    ensures |squares| == |numbers|
    ensures forall i | 0 <= i < |numbers| :: squares[i] == Wrap(numbers[i] as int * numbers[i])
    ensures (forall i | 0 <= i < |numbers| :: -MaxExactSquareRoot <= numbers[i] <= MaxExactSquareRoot)
              ==> squares == PyPatterns.SquareNumbers(numbers)
  {
    var a := new Int64[|numbers|];
    var i := 0;
    while i < |numbers|
      invariant 0 <= i <= |numbers|
      invariant forall k | 0 <= k < i :: a[k] == Wrap(numbers[k] as int * numbers[k])
    {
      a[i] := Wrap(numbers[i] as int * numbers[i]);
      i := i + 1;
    }
    squares := a[..];
    if forall k | 0 <= k < |numbers| :: -MaxExactSquareRoot <= numbers[k] <= MaxExactSquareRoot {
      SquaresExact(numbers);
    }
  }

  /** `iterateZip`: the index-aligned pairs printed, up to the shorter slice. */
  method IterateZip(slice1: seq<string>, slice2: seq<string>) returns (printed: seq<(string, string)>)
    ensures |printed| == if |slice1| < |slice2| then |slice1| else |slice2|
    ensures forall i | 0 <= i < |printed| :: printed[i] == (slice1[i], slice2[i])
    ensures printed == PyPatterns.IterateZip(slice1, slice2)
  {
    var minLen := |slice1|;
    if |slice2| < minLen {
      minLen := |slice2|;
    }
    printed := [];
    var i := 0;
    while i < minLen
      invariant 0 <= i <= minLen
      invariant |printed| == i
      invariant forall k | 0 <= k < i :: printed[k] == (slice1[k], slice2[k])
    {
      printed := printed + [(slice1[i], slice2[i])];
      i := i + 1;
    }
  }

  /** `iterateWhile`: the counts printed by `for count < limit`. */
  method IterateWhile(limit: Int64) returns (printed: seq<Int64>)
    ensures |printed| == if limit > 0 then limit else 0
    ensures forall k | 0 <= k < |printed| :: printed[k] == k
    ensures printed == PyPatterns.IterateWhile(limit)
  {
    printed := [];
    var count: Int64 := 0;
    while count < limit
      invariant 0 <= count <= if limit > 0 then limit else 0
      invariant |printed| == count
      invariant forall k | 0 <= k < count :: printed[k] == k
    {
      printed := printed + [count];
      count := count + 1;
    }
  }

  /** `reverseString`: swap runes from both ends towards the middle. */
  method ReverseString(s: string) returns (r: string)
    ensures |r| == |s|
    ensures forall k | 0 <= k < |s| :: r[k] == s[|s| - 1 - k]
    ensures r == PyPatterns.ReverseString(s)
  {
    var runes := new char[|s|](k requires 0 <= k < |s| => s[k]);
    var i, j := 0, |s| - 1;
    while i < j
      invariant 0 <= i <= j + 1 && j == |s| - 1 - i
      invariant forall k | 0 <= k < i :: runes[k] == s[|s| - 1 - k] && runes[|s| - 1 - k] == s[k]
      invariant forall k | i <= k <= j :: runes[k] == s[k]
    {
      runes[i], runes[j] := runes[j], runes[i];
      i, j := i + 1, j - 1;
    }
    r := runes[..];
  }

  /** `splitAndJoin`: `strings.Split` then `strings.Join(parts, "-")`. An
      empty delimiter splits into single runes, where Python raises
      ValueError. */
  function SplitAndJoin(s: string, delimiter: string): (r: (seq<string>, string))
    ensures |delimiter| > 0 ==> Join(r.0, delimiter) == s
    ensures |delimiter| > 0 ==> forall p | p in r.0 :: !Contains(p, delimiter)
    ensures |delimiter| > 0 ==> r.1 == ReplaceAll(s, delimiter, "-")
    ensures |delimiter| > 0 ==> PyPatterns.SplitAndJoin(s, delimiter) == Ok(r)
    ensures |delimiter| == 0 ==> |r.0| == |s| && Join(r.0, "") == s
    ensures |delimiter| == 0 ==> forall i | 0 <= i < |s| :: r.0[i] == [s[i]]
    ensures r.1 == Join(r.0, "-")
  {
    if |delimiter| == 0 then
      var parts := Explode(s);
      ExplodeRoundTrip(s);
      (parts, Join(parts, "-"))
    else
      var parts := Split(s, delimiter);
      SplitRoundTrip(s, delimiter);
      SplitPiecesFree(s, delimiter);
      SplitJoinIsReplace(s, delimiter, "-");
      (parts, Join(parts, "-"))
  }

  /** `replaceSubstring` (`strings.ReplaceAll`), which returns `s` at once
      when the two arguments are equal. It agrees with Python's replace. */
  function ReplaceSubstring(s: string, target: string, replacement: string): (r: string)
    ensures target == replacement ==> r == s
    ensures |target| > 0 && !Contains(s, target) ==> r == s
    ensures r == PyPatterns.ReplaceSubstring(s, target, replacement)
  {
    if target == replacement then s else ReplaceAll(s, target, replacement)
  }

  /** `stripWhitespace` (`strings.TrimSpace`). It agrees with Python's strip
      except on the information separators U+001C..U+001F. */
  function StripWhitespace(s: string): (r: string)
    ensures exists i, j :: IsTrimOf(s, r, i, j, GoTrimSpace)
    ensures (forall k | 0 <= k < |s| :: !InformationSeparator(s[k])) ==> r == PyPatterns.StripWhitespace(s)
  {
    var r := Strip(s, GoTrimSpace);
    if forall k | 0 <= k < |s| :: !InformationSeparator(s[k]) then
      StripFlavoursAgree(s);
      r
    else r
  }

  /** `findSubstring` (`strings.Index`): -1 when absent, otherwise the BYTE
      offset of the leftmost occurrence, which is the code-point offset only
      for ASCII text. */
  function FindSubstring(s: string, substr: string): (r: int)
    ensures r == -1 <==> !Contains(s, substr)
    ensures r != -1 ==> exists k | 0 <= k <= |s| :: FirstOccurrence(s, substr, k) && r == Utf8.Length(s[..k])
    ensures Utf8.IsAscii(s) ==> r == PyPatterns.FindSubstring(s, substr)
  {
    var k := Find(s, substr);
    if k == -1 then -1
    else
      assert Utf8.IsAscii(s) ==> Utf8.IsAscii(s[..k]);
      Utf8.Length(s[..k])
  }

  /** `iterateLines`: the lines printed, which are the pieces of a split on
      "\n"; a trailing newline prints one empty last line. */
  function IterateLines(multiline: string): (lines: seq<string>)
    ensures Join(lines, "\n") == multiline
    ensures forall line | line in lines :: '\n' !in line
  {
    var lines := Split(multiline, "\n");
    SplitRoundTrip(multiline, "\n");
    SplitPiecesFree(multiline, "\n");
    forall line | line in lines
      ensures '\n' !in line
    {
      AbsentChar(line, '\n');
    }
    lines
  }
  // Usage examples from the program's main function.

  lemma JoinWordsExample()
    ensures Join(["Go", "is", "awesome"], " ") == "Go is awesome"
    ensures Join(["Go", "is", "awesome"], "-") == "Go-is-awesome"
  {
  }

  lemma SplitWordsExample()
    ensures Split("Go is awesome", " ") == ["Go", "is", "awesome"]
  {
    JoinWordsExample();
    SplitJoinInverse(["Go", "is", "awesome"], ' ');
  }

  lemma SplitAndJoinExample()
    ensures SplitAndJoin("Go is awesome", " ") == (["Go", "is", "awesome"], "Go-is-awesome")
  {
    SplitWordsExample();
    JoinWordsExample();
  }

  /** "Hello, World!", with the one occurrence of "World" marked out. */
  lemma ReplaceExample()
    ensures ReplaceSubstring("Hello, " + "World" + "!", "World", "Gopher") == "Hello, Gopher!"
  {
    AbsentFirstChar("!", "World");
    ReplaceOnce("Hello, ", "World", "!", "Gopher");
  }

  lemma FindExample()
    ensures FindSubstring("Hello, World!", "World") == 7
  {
    FindAt("Hello, World!", "World", 7);
    assert Utf8.IsAscii("Hello, World!"[..7]);
  }
}

=== FILE: log_scan.dfy ===
/** The pure part of the log monitor's `check_logs_for_errors`: pick the
    lines that mention CRITICAL or ERROR and summarise them. Whether the log
    file exists and what it holds are parameters. */
module LogScan {
  import opened Search
  import opened Splitting

  const NoLogFile: string := "No log file found."
  const NoErrors: string := "No critical errors detected."

  /** `"CRITICAL" in line or "ERROR" in line`. */
  predicate IsErrorLine(line: string) {
    Contains(line, "CRITICAL") || Contains(line, "ERROR")
  }

  /** Some line mentions a keyword. */
  predicate SomeErrorLine(lines: seq<string>) {
    exists i | 0 <= i < |lines| :: IsErrorLine(lines[i])
  }

  /** A line ends with its terminator. */
  predicate Terminated(line: string) {
    |line| > 0 && line[|line| - 1] == '\n'
  }

  /** A non-empty line with no newline before its last character. */
  predicate SingleLine(line: string) {
    |line| > 0 && forall j | 0 <= j < |line| - 1 :: line[j] != '\n'
  }

  /** Every line is a single non-empty line, and all but the last are
      terminated. */
  predicate WellFormedLines(lines: seq<string>) {
    && (forall i | 0 <= i < |lines| :: SingleLine(lines[i]))
    && (forall i | 0 <= i < |lines| - 1 :: Terminated(lines[i]))
  }

  /** `file.readlines()` on text whose line ends are already "\n": every
      line keeps its terminator, and a last line without one is kept too. */
  function ReadLines(content: string): (lines: seq<string>)
    ensures Join(lines, "") == content
    ensures WellFormedLines(lines)
    decreases |content|, 1
  {
    if |content| == 0 then [] else ReadLinesAt(content, Find(content, "\n"))
  }

  /** The lines of non-empty `content`, given where its first newline is
      (-1: none). */
  function ReadLinesAt(content: string, k: int): (lines: seq<string>)
    requires |content| > 0
    requires if k == -1 then !Contains(content, "\n") else FirstOccurrence(content, "\n", k)
    ensures |lines| > 0
    ensures Join(lines, "") == content
    ensures WellFormedLines(lines)
    decreases |content|, 0
  {
    if k == -1 then
      AbsentChar(content, '\n');
      [content]
    else
      var line := content[..k + 1];
      var rest := ReadLines(content[k + 1..]);
      FirstLine(content, k);
      JoinCons(line, rest, "");
      assert line + content[k + 1..] == content;
      LinesCons(line, rest);
      [line] + rest
  }

  /** A terminated line followed by well-formed lines is well-formed. */
  lemma LinesCons(line: string, rest: seq<string>)
    requires SingleLine(line) && Terminated(line)
    requires WellFormedLines(rest)
    ensures WellFormedLines([line] + rest)
  {
    forall i | 0 <= i < |rest| + 1
      ensures SingleLine(([line] + rest)[i]) && (i < |rest| ==> Terminated(([line] + rest)[i]))
    {
      if i > 0 {
        assert ([line] + rest)[i] == rest[i - 1];
      }
    }
  }

  /** The text up to and including the first newline is one terminated line. */
  lemma FirstLine(s: string, k: int)
    requires FirstOccurrence(s, "\n", k)
    ensures SingleLine(s[..k + 1]) && Terminated(s[..k + 1])
  {
    assert s[k..k + 1][0] == s[k];
    forall j | 0 <= j < k
      ensures s[j] != '\n'
    {
      assert !OccursAt(s, "\n", j);
      assert s[j..j + 1] == [s[j]];
    }
  }

  /** `[line for line in lines if "CRITICAL" in line or "ERROR" in line]`. */
  function ErrorLines(lines: seq<string>): (selected: seq<string>)
    ensures |selected| <= |lines|
    ensures forall x | x in selected :: x in lines && IsErrorLine(x)
    ensures forall i | 0 <= i < |lines| && IsErrorLine(lines[i]) :: lines[i] in selected
    decreases |lines|
  {
    if |lines| == 0 then []
    else (if IsErrorLine(lines[0]) then [lines[0]] else []) + ErrorLines(lines[1..])
  }

  /** Selection keeps the original order: it distributes over concatenation. */
  lemma {:induction false} ErrorLinesAppend(a: seq<string>, b: seq<string>)
    ensures ErrorLines(a + b) == ErrorLines(a) + ErrorLines(b)
    decreases |a|
  {
    if |a| > 0 {
      assert (a + b)[1..] == a[1..] + b;
      ErrorLinesAppend(a[1..], b);
    } else {
      assert a + b == b;
    }
  }

  /** Filtering the selection again changes nothing. */
  lemma {:induction false} ErrorLinesIdempotent(lines: seq<string>)
    ensures ErrorLines(ErrorLines(lines)) == ErrorLines(lines)
    decreases |lines|
  {
    if |lines| > 0 {
      ErrorLinesIdempotent(lines[1..]);
      var head := if IsErrorLine(lines[0]) then [lines[0]] else [];
      ErrorLinesAppend(head, ErrorLines(lines[1..]));
    }
  }

  /** `lines[i]` is the first line that mentions a keyword. */
  predicate FirstErrorLine(lines: seq<string>, i: int) {
    && 0 <= i < |lines|
    && IsErrorLine(lines[i])
    && forall j | 0 <= j < i :: !IsErrorLine(lines[j])
  }

  /** The selection starts with the first matching line. */
  lemma {:induction false} ErrorLinesFirst(lines: seq<string>, i: int)
    requires FirstErrorLine(lines, i)
    ensures |ErrorLines(lines)| > 0 && ErrorLines(lines)[0] == lines[i]
    decreases i
  {
    if i > 0 {
      assert !IsErrorLine(lines[0]);
      assert FirstErrorLine(lines[1..], i - 1) by {
        forall j | 0 <= j < i - 1
          ensures !IsErrorLine(lines[1..][j])
        {
          assert lines[1..][j] == lines[j + 1];
        }
      }
      ErrorLinesFirst(lines[1..], i - 1);
    }
  }

  /** `check_logs_for_errors` with the existence test and `readlines()`
      result given: the fixed message for a missing file, the fixed message
      when nothing matches, otherwise the matching lines joined by "\n".
      Lines keep their own terminators, so nothing is trimmed. */
  function CheckLogsForErrors(fileExists: bool, lines: seq<string>): (summary: string)
    ensures summary == NoLogFile <==> !fileExists
    ensures fileExists && (forall i | 0 <= i < |lines| :: !IsErrorLine(lines[i])) ==> summary == NoErrors
    ensures fileExists && |ErrorLines(lines)| > 0 ==> summary == Join(ErrorLines(lines), "\n")
    ensures forall i | 0 <= i < |lines| && FirstErrorLine(lines, i) :: fileExists ==> lines[i] <= summary
  {
    if !fileExists then NoLogFile
    else
      var errors := ErrorLines(lines);
      if |errors| > 0 then
        forall i | 0 <= i < |lines| && FirstErrorLine(lines, i)
          ensures lines[i] == errors[0]
        {
          ErrorLinesFirst(lines, i);
        }
        SummaryMentionsErrors(errors);
        FixedMessagesQuiet();
        Join(errors, "\n")
      else NoErrors
  }

  /** The two fixed messages mention neither keyword (the second says
      "critical" in lower case). */
  lemma FixedMessagesQuiet()
    ensures !IsErrorLine(NoLogFile) && !IsErrorLine(NoErrors)
  {
    AbsentFirstChar(NoLogFile, "CRITICAL");
    AbsentFirstChar(NoLogFile, "ERROR");
    AbsentFirstChar(NoErrors, "CRITICAL");
    AbsentFirstChar(NoErrors, "ERROR");
  }

  /** A join of error lines mentions a keyword. */
  lemma SummaryMentionsErrors(errors: seq<string>)
    requires |errors| > 0 && IsErrorLine(errors[0])
    ensures IsErrorLine(Join(errors, "\n"))
  {
    var summary := Join(errors, "\n");
    ContainsPrefix(summary, errors[0]);
    if Contains(errors[0], "CRITICAL") {
      ContainsTransitive(summary, errors[0], "CRITICAL");
    } else {
      ContainsTransitive(summary, errors[0], "ERROR");
    }
  }

  /** The caller's alert test (`"CRITICAL" in summary or "ERROR" in summary`)
      fires exactly when the file exists and some line mentions a keyword. */
  lemma AlertIffErrors(fileExists: bool, lines: seq<string>)
    ensures IsErrorLine(CheckLogsForErrors(fileExists, lines))
            <==> fileExists && SomeErrorLine(lines)
  {
    FixedMessagesQuiet();
    var errors := ErrorLines(lines);
    if fileExists && |errors| > 0 {
      SummaryMentionsErrors(errors);
      assert errors[0] in lines;
    }
  }

  /** `check_logs_for_errors` on the file's text. */
  function CheckLogFile(fileExists: bool, content: string): (summary: string)
    ensures !fileExists ==> summary == NoLogFile
    ensures fileExists && !IsErrorLine(content) ==> summary == NoErrors
    ensures IsErrorLine(summary) <==> fileExists && IsErrorLine(content)
    ensures fileExists && IsErrorLine(content) ==>
              summary == Join(ErrorLines(ReadLines(content)), "\n")
  {
    var lines := ReadLines(content);
    ErrorsAreInLines(content);
    AlertIffErrors(fileExists, lines);
    CheckLogsForErrors(fileExists, lines)
  }

  /** The text mentions a keyword exactly when one of its lines does. */
  lemma ErrorsAreInLines(content: string)
    ensures IsErrorLine(content) <==> SomeErrorLine(ReadLines(content))
  {
    var lines := ReadLines(content);
    forall i | 0 <= i < |lines| && IsErrorLine(lines[i])
      ensures IsErrorLine(content)
    {
      JoinContainsPart(lines, "", i);
      if Contains(lines[i], "CRITICAL") {
        ContainsTransitive(content, lines[i], "CRITICAL");
      } else {
        ContainsTransitive(content, lines[i], "ERROR");
      }
    }
    if Contains(content, "CRITICAL") {
      KeywordWithinLine(lines, "CRITICAL");
      var i :| 0 <= i < |lines| && Contains(lines[i], "CRITICAL");
      assert IsErrorLine(lines[i]);
    } else if Contains(content, "ERROR") {
      KeywordWithinLine(lines, "ERROR");
      var i :| 0 <= i < |lines| && Contains(lines[i], "ERROR");
      assert IsErrorLine(lines[i]);
    }
  }

  lemma RestWellFormed(lines: seq<string>)
    requires |lines| > 0 && WellFormedLines(lines)
    ensures WellFormedLines(lines[1..])
  {
    assert forall i | 0 <= i < |lines| - 1 :: lines[1..][i] == lines[i + 1];
  }

  /** An occurrence of newline-free text in a terminated line followed by more
      text lies on one side of the terminator. */
  lemma OccursOnOneSide(head: string, t: string, kw: string, p: int)
    requires Terminated(head) && '\n' !in kw && OccursAt(head + t, kw, p)
    ensures p + |kw| <= |head| ==> OccursAt(head, kw, p)
    ensures p + |kw| > |head| ==> OccursAt(t, kw, p - |head|)
  {
    var s := head + t;
    assert s[|head| - 1] == '\n';
    forall q | p <= q < p + |kw|
      ensures s[q] != '\n'
    {
      assert s[q] == s[p..p + |kw|][q - p] == kw[q - p];
    }
    if p + |kw| <= |head| {
      assert s[p..p + |kw|] == head[p..p + |kw|];
    } else {
      assert s[p..p + |kw|] == t[p - |head|..p - |head| + |kw|];
    }
  }

  /** A text without newlines that occurs in the concatenation of well-formed
      lines occurs within one of them: it cannot straddle a terminator. */
  lemma {:induction false} KeywordWithinLine(lines: seq<string>, kw: string)
    requires WellFormedLines(lines) && |kw| > 0 && '\n' !in kw
    requires Contains(Join(lines, ""), kw)
    ensures exists i | 0 <= i < |lines| :: Contains(lines[i], kw)
    decreases |lines|
  {
    var s := Join(lines, "");
    var p :| 0 <= p <= |s| - |kw| && OccursAt(s, kw, p);
    assert |lines| > 0;
    var head, rest := lines[0], lines[1..];
    assert lines == [head] + rest;
    JoinCons(head, rest, "");
    if |rest| == 0 {
      assert OccursAt(head, kw, p);
    } else {
      var t := Join(rest, "");
      assert s == head + t;
      assert Terminated(head);
      OccursOnOneSide(head, t, kw, p);
      if p + |kw| > |head| {
        RestWellFormed(lines);
        KeywordWithinLine(rest, kw);
        var i :| 0 <= i < |rest| && Contains(rest[i], kw);
        assert lines[i + 1] == rest[i];
      }
    }
  }
}

=== FILE: oop.dfy ===
/** The object-oriented patterns: an account whose balance is private, an
    overridden method, an implemented abstract method, a component held by
    composition, and a singleton. Objects are immutable values here; a call
    that mutates an object returns its new state. */
module OopPatterns {
  import opened Results

  // Encapsulation

  /** `BankAccount`: a public account number and a private balance. */
  datatype BankAccount = BankAccount(accountNumber: string, balance: int)

  /** `BankAccount(account_number, balance)`. */
  function NewBankAccount(accountNumber: string, balance: int): (a: BankAccount)
    ensures a.accountNumber == accountNumber && GetBalance(a) == balance
  {
    BankAccount(accountNumber, balance)
  }

  /** `get_balance()`: reads the balance and changes nothing. */
  function GetBalance(a: BankAccount): int {
    a.balance
  }

  /** `deposit(amount)`: adds `amount` without validating it, so a negative
      amount lowers the balance. The account number stays. */
  function Deposit(a: BankAccount, amount: int): (a': BankAccount)
    ensures a'.accountNumber == a.accountNumber
    ensures GetBalance(a') == GetBalance(a) + amount
  {
    a.(balance := a.balance + amount)
  }

  /** A call a client can make on an account. */
  datatype AccountCall = DepositCall(amount: int) | GetBalanceCall

  /** The account after a sequence of calls. */
  function Apply(a: BankAccount, calls: seq<AccountCall>): BankAccount
    decreases |calls|
  {
    if |calls| == 0 then a
    else
      var next := match calls[0]
        case DepositCall(amount) => Deposit(a, amount)
        case GetBalanceCall => a;
      Apply(next, calls[1..])
  }

  /** The sum of the amounts deposited by `calls`. */
  function TotalDeposited(calls: seq<AccountCall>): int
    decreases |calls|
  {
    if |calls| == 0 then 0
    else (if calls[0].DepositCall? then calls[0].amount else 0) + TotalDeposited(calls[1..])
  }

  /** Only deposits move the balance, by exactly what was deposited, and no
      call changes the account number. */
  lemma {:induction false} OnlyDepositsMoveBalance(a: BankAccount, calls: seq<AccountCall>)
    ensures Apply(a, calls).accountNumber == a.accountNumber
    ensures GetBalance(Apply(a, calls)) == GetBalance(a) + TotalDeposited(calls)
    decreases |calls|
  {
    if |calls| > 0 {
      var next := if calls[0].DepositCall? then Deposit(a, calls[0].amount) else a;
      OnlyDepositsMoveBalance(next, calls[1..]);
    }
  }

  /** The usage example: 1000 plus a deposit of 500 is 1500. */
  lemma DepositExample()
    ensures GetBalance(Apply(NewBankAccount("12345", 1000), [DepositCall(500), GetBalanceCall])) == 1500
  {
    OnlyDepositsMoveBalance(NewBankAccount("12345", 1000), [DepositCall(500), GetBalanceCall]);
  }

  // Inheritance and polymorphism

  /** An `Animal` or its subclass `Dog`, which overrides `speak`. */
  datatype Animal = Animal | Dog {
    function Speak(): string {
      match this
      case Animal => "Some sound"
      case Dog => "Woof!"
    }
  }

  /** `make_animal_speak(animal)`: the receiver's own `speak`. */
  function MakeAnimalSpeak(animal: Animal): (sound: string)
    ensures sound == "Woof!" <==> animal.Dog?
    ensures sound == "Some sound" <==> animal.Animal?
  {
    animal.Speak()
  }

  // Abstraction

  /** The concrete subclasses of the abstract `Vehicle`. */
  datatype Vehicle = Car {
    /** `move()`. */
    function Move(): string {
      "Car is moving"
    }
  }

  // Composition

  datatype Engine = Engine {
    /** `start()`. */
    function Start(): string {
      "Engine started"
    }
  }

  /** `CarComposition`: a car that owns an engine. */
  datatype CarComposition = CarComposition(engine: Engine)

  /** `CarComposition()`: builds its own engine. */
  function NewCarComposition(): CarComposition {
    CarComposition(Engine)
  }

  /** `start_car()`: delegates to the engine. */
  function StartCar(c: CarComposition): (r: string)
    ensures r == "Engine started"
  {
    c.engine.Start()
  }

  /** The usage examples of the dispatch and delegation patterns. */
  lemma DispatchExamples()
    ensures MakeAnimalSpeak(Dog) == "Woof!"
    ensures Car.Move() == "Car is moving"
    ensures StartCar(NewCarComposition()) == "Engine started"
  {
  }

  // Singleton

  /** An object identity: what `is` compares. */
  type ObjectId = nat

  /** The class object: the `_instance` attribute, and the identity the next
      call to `object.__new__` would hand out. */
  datatype SingletonClass = SingletonClass(instance: Option<ObjectId>, nextId: ObjectId)

  /** The class before any construction. */
  function Fresh(): SingletonClass {
    SingletonClass(None, 0)
  }

  /** `Singleton()`: create and remember an instance only if there is none,
      then return the remembered one. */
  function Construct(cls: SingletonClass): (r: (SingletonClass, ObjectId))
    ensures r.0.instance == Some(r.1)
    ensures cls.instance.Some? ==> r.1 == cls.instance.value && r.0 == cls
    ensures r.0.nextId <= cls.nextId + 1
  {
    if cls.instance.None? then
      var id := cls.nextId;
      (SingletonClass(Some(id), cls.nextId + 1), id)
    else (cls, cls.instance.value)
  }

  /** The identities returned by `n` constructions in a row. */
  function ConstructMany(cls: SingletonClass, n: nat): (seq<ObjectId>, SingletonClass)
    decreases n
  {
    if n == 0 then ([], cls)
    else
      var (cls', id) := Construct(cls);
      var (ids, last) := ConstructMany(cls', n - 1);
      ([id] + ids, last)
  }

  /** Every construction after the first returns the first one's instance,
      and at most one object is ever allocated. */
  lemma {:induction false} AllConstructionsSame(cls: SingletonClass, n: nat)
    requires n >= 1
    ensures |ConstructMany(cls, n).0| == n
    ensures forall k | 0 <= k < n :: ConstructMany(cls, n).0[k] == Construct(cls).1
    ensures ConstructMany(cls, n).1.nextId <= cls.nextId + 1
    ensures cls.instance.Some? ==> ConstructMany(cls, n).1 == cls
    decreases n
  {
    var (cls', id) := Construct(cls);
    if n > 1 {
      AllConstructionsSame(cls', n - 1);
      assert Construct(cls').1 == id;
    }
  }

  /** The usage example: `s1 is s2`. */
  lemma SingletonExample()
    ensures var (cls1, s1) := Construct(Fresh()); var (_, s2) := Construct(cls1); s1 == s2
  {
  }
}

=== FILE: py_patterns.dfy ===
/** The iteration and string helpers of the Python cheat sheet. Printing
    helpers return the items they would print, in order. */
module PyPatterns {
  import opened Results
  import opened Search
  import opened Splitting
  import opened Whitespace

  /** The exception a helper raises instead of returning. */
  datatype PyException = ValueError(message: string)

  /** `[n ** 2 for n in numbers]` over Python's unbounded integers, built the
      way the comprehension runs: element by element, front to back. */
  function SquareNumbers(numbers: seq<int>): (squares: seq<int>)
    ensures |squares| == |numbers|
    ensures forall i | 0 <= i < |numbers| :: squares[i] == numbers[i] * numbers[i]
    decreases |numbers|
  {
    if |numbers| == 0 then []
    else [numbers[0] * numbers[0]] + SquareNumbers(numbers[1..])
  }

  /** A suspended generator expression `(n ** 2 for n in numbers)`: the list
      it draws from and how many elements it has consumed. */
  datatype SquaresGenerator = SquaresGenerator(numbers: seq<int>, consumed: nat)

  /** `generator_squares(numbers)`: nothing is computed yet. */
  function GeneratorSquares(numbers: seq<int>): SquaresGenerator {
    SquaresGenerator(numbers, 0)
  }

  /** `next(g)`: the next square and the advanced generator, or `None` where
      Python raises StopIteration. */
  function Next(g: SquaresGenerator): Option<(int, SquaresGenerator)> {
    if g.consumed < |g.numbers| then
      var n := g.numbers[g.consumed];
      Some((n * n, SquaresGenerator(g.numbers, g.consumed + 1)))
    else None
  }

  /** Everything a `for` loop over `g` receives. */
  function Drain(g: SquaresGenerator): seq<int>
    decreases |g.numbers| - g.consumed
  {
    match Next(g)
    case None => []
    case Some(step) => [step.0] + Drain(step.1)
  }

  /** A partly consumed generator yields the rest of the list's squares. */
  lemma {:induction false} DrainRest(g: SquaresGenerator)
    requires g.consumed <= |g.numbers|
    ensures Drain(g) == SquareNumbers(g.numbers)[g.consumed..]
    decreases |g.numbers| - g.consumed
  {
    if g.consumed < |g.numbers| {
      var rest := SquaresGenerator(g.numbers, g.consumed + 1);
      DrainRest(rest);
      var squares := SquareNumbers(g.numbers);
      assert Drain(g) == [squares[g.consumed]] + Drain(rest);
      SliceFront(squares, g.consumed);
    }
  }

  /** A suffix is its first element followed by the next suffix. */
  lemma SliceFront(s: seq<int>, c: nat)
    requires c < |s|
    ensures s[c..] == [s[c]] + s[c + 1..]
  {
  }

  /** The generator yields exactly the list comprehension's values. */
  lemma GeneratorMatchesList(numbers: seq<int>)
    ensures Drain(GeneratorSquares(numbers)) == SquareNumbers(numbers)
  {
    DrainRest(GeneratorSquares(numbers));
  }

  /** `zip(list1, list2)`: index-aligned pairs, stopping at the shorter list. */
  function IterateZip<A, B>(list1: seq<A>, list2: seq<B>): (pairs: seq<(A, B)>)
    ensures |pairs| == if |list1| < |list2| then |list1| else |list2|
    ensures forall i | 0 <= i < |pairs| :: pairs[i] == (list1[i], list2[i])
    decreases |list1|
  {
    if |list1| == 0 || |list2| == 0 then []
    else [(list1[0], list2[0])] + IterateZip(list1[1..], list2[1..])
  }

  /** The counts a `while count < limit` loop prints, starting at `count`. */
  function CountUp(count: int, limit: int): (counts: seq<int>)
    ensures |counts| == if count < limit then limit - count else 0
    ensures forall k | 0 <= k < |counts| :: counts[k] == count + k
    decreases limit - count
  {
    if count < limit then [count] + CountUp(count + 1, limit) else []
  }

  /** `iterate_while(limit)`: the counts 0 .. limit - 1, none when limit <= 0. */
  function IterateWhile(limit: int): (counts: seq<int>)
    ensures |counts| == if limit > 0 then limit else 0
    ensures forall k | 0 <= k < |counts| :: counts[k] == k
  {
    CountUp(0, limit)
  }

  /** `s[::-1]`. */
  function ReverseString(s: string): (r: string)
    ensures |r| == |s|
    ensures forall k | 0 <= k < |s| :: r[k] == s[|s| - 1 - k]
  {
    seq(|s|, i requires 0 <= i < |s| => s[|s| - 1 - i])
  }

  /** Reversing keeps the length, mirrors positions, and undoes itself. */
  lemma ReverseInvolution(s: string)
    ensures |ReverseString(s)| == |s|
    ensures forall k | 0 <= k < |s| :: ReverseString(s)[k] == s[|s| - 1 - k]
    ensures ReverseString(ReverseString(s)) == s
  {
  }

  /** `split_and_join(s, delimiter)`: the pieces of `s.split(delimiter)` and
      `"-".join` of them; an empty delimiter raises ValueError. */
  function SplitAndJoin(s: string, delimiter: string := " "): (r: Result<(seq<string>, string), PyException>)
    ensures r.Err? <==> |delimiter| == 0
    ensures r.Err? ==> r.error == ValueError("empty separator")
    ensures r.Ok? ==> Join(r.value.0, delimiter) == s
    ensures r.Ok? ==> (r.value.0 == [s] <==> !Contains(s, delimiter))
    ensures r.Ok? ==> forall p | p in r.value.0 :: !Contains(p, delimiter)
    ensures r.Ok? ==> r.value.1 == Join(r.value.0, "-")
    ensures r.Ok? ==> r.value.1 == ReplaceAll(s, delimiter, "-")
    ensures r.Ok? ==> forall k | FirstOccurrence(s, delimiter, k) ::
              r.value.0 == [s[..k]] + Split(s[k + |delimiter|..], delimiter)
  {
    if |delimiter| == 0 then Err(ValueError("empty separator"))
    else
      var parts := Split(s, delimiter);
      SplitLeftmost(s, delimiter);
      SplitRoundTrip(s, delimiter);
      SplitPiecesFree(s, delimiter);
      SplitJoinIsReplace(s, delimiter, "-");
      Ok((parts, Join(parts, "-")))
  }

  /** Two delimiters in a row, the first of them the leftmost, leave an
      empty piece between them. */
  lemma AdjacentDelimitersLeaveEmptyPiece(s: string, delimiter: string, k: int)
    requires |delimiter| > 0 && FirstOccurrence(s, delimiter, k)
    requires OccursAt(s, delimiter, k + |delimiter|)
    ensures SplitAndJoin(s, delimiter).Ok?
    ensures var parts := SplitAndJoin(s, delimiter).value.0; |parts| >= 3 && parts[1] == ""
  {
    var rest := s[k + |delimiter|..];
    SplitFirst(s, delimiter, k);
    assert OccursAt(rest, delimiter, 0) by {
      assert rest[..|delimiter|] == s[k + |delimiter|..k + 2 * |delimiter|];
    }
    assert FirstOccurrence(rest, delimiter, 0);
    SplitFirst(rest, delimiter, 0);
  }

  /** `s.replace(old, new)`: `s` itself when there is nothing to change. */
  function ReplaceSubstring(s: string, target: string, replacement: string): (r: string)
    ensures |target| > 0 && !Contains(s, target) ==> r == s
    ensures target == replacement ==> r == s
  {
    ReplaceAll(s, target, replacement)
  }

  /** `s.strip()`: the unique trim of `s`, which a second strip keeps. */
  function StripWhitespace(s: string): (r: string)
    ensures exists i, j :: IsTrimOf(s, r, i, j, PythonStrip)
    ensures Strip(r, PythonStrip) == r
  {
    StripIdempotent(s, PythonStrip);
    Strip(s, PythonStrip)
  }

  /** `s.find(substring)`: the leftmost code-point index, or -1. */
  function FindSubstring(s: string, substring: string): (r: int)
    ensures r == -1 <==> !Contains(s, substring)
    ensures r != -1 ==> FirstOccurrence(s, substring, r)
  {
    Find(s, substring)
  }

  // Usage examples from the script's main block.

  lemma SquaresExample()
    ensures SquareNumbers([1, 2, 3, 4, 5]) == [1, 4, 9, 16, 25]
  {
  }

  lemma JoinWordsExample()
    ensures Join(["Python", "is", "fun"], " ") == "Python is fun"
    ensures Join(["Python", "is", "fun"], "-") == "Python-is-fun"
  {
  }

  lemma SplitWordsExample()
    ensures Split("Python is fun", " ") == ["Python", "is", "fun"]
  {
    JoinWordsExample();
    SplitJoinInverse(["Python", "is", "fun"], ' ');
  }

  lemma SplitAndJoinExample()
    ensures SplitAndJoin("Python is fun", " ") == Ok((["Python", "is", "fun"], "Python-is-fun"))
  {
    SplitWordsExample();
    JoinWordsExample();
  }

  lemma JoinEmptyPieceExample()
    ensures Join(["a", "", "b"], " ") == "a  b"
    ensures Join(["a", "", "b"], "-") == "a--b"
  {
  }

  /** Adjacent delimiters leave an empty piece between them. */
  lemma SplitKeepsEmptyPieces()
    ensures SplitAndJoin("a  b") == Ok((["a", "", "b"], "a--b"))
  {
    JoinEmptyPieceExample();
    SplitJoinInverse(["a", "", "b"], ' ');
  }

  /** "Hello, World!", with the one occurrence of "World" marked out. */
  lemma ReplaceExample()
    ensures ReplaceSubstring("Hello, " + "World" + "!", "World", "Python") == "Hello, Python!"
  {
    AbsentFirstChar("!", "World");
    ReplaceOnce("Hello, ", "World", "!", "Python");
  }

  lemma StripExample()
    ensures StripWhitespace("   Lots of space   ") == "Lots of space"
  {
    StripCharacterized("   Lots of space   ", "Lots of space", 3, 16, PythonStrip);
  }

  lemma FindExample()
    ensures FindSubstring("Hello, World!", "World") == 7
  {
    FindAt("Hello, World!", "World", 7);
  }
}

=== FILE: results.dfy ===
/** Failure-carrying return values used where Python raises an exception or
    has nothing to return. */
module Results {

  /** A value that may be absent (Python's `None`). */
  datatype Option<+T> = None | Some(value: T)

  /** Either a value or the exception Python would raise instead. */
  datatype Result<+T, +E> = Ok(value: T) | Err(error: E)
}

=== FILE: search.dfy ===
/** Substring search over code-point strings: Python's `sub in s` and
    `s.find(sub)`, and the code-point view of Go's `strings.Index`. */
module Search {

  /** `sub` occurs in `s` starting at code-point offset `i`. */
  predicate OccursAt(s: string, sub: string, i: int) {
    0 <= i && i + |sub| <= |s| && s[i..i + |sub|] == sub
  }

  /** Python's `sub in s`. */
  predicate Contains(s: string, sub: string) {
    exists i | 0 <= i <= |s| - |sub| :: OccursAt(s, sub, i)
  }

  /** `k` is the leftmost offset at which `sub` occurs in `s`. */
  predicate FirstOccurrence(s: string, sub: string, k: int) {
    OccursAt(s, sub, k) && forall j | 0 <= j < k :: !OccursAt(s, sub, j)
  }

  /** Left-to-right scan for `sub`, starting at offset `from`. */
  function FindFrom(s: string, sub: string, from: nat): (r: int)
    requires from <= |s|
    ensures r == -1 || (from <= r && OccursAt(s, sub, r))
    ensures r == -1 ==> forall j | from <= j :: !OccursAt(s, sub, j)
    ensures r != -1 ==> forall j | from <= j < r :: !OccursAt(s, sub, j)
    decreases |s| - from
  {
    if from + |sub| > |s| then -1
    else if s[from..from + |sub|] == sub then from
    else FindFrom(s, sub, from + 1)
  }

  /** Python's `s.find(sub)`: -1 exactly when `sub` is absent, otherwise the
      lowest offset where it occurs. An empty `sub` is found at offset 0. */
  function Find(s: string, sub: string): (r: int)
    ensures r == -1 <==> !Contains(s, sub)
    ensures r != -1 ==> FirstOccurrence(s, sub, r)
  {
    FindFrom(s, sub, 0)
  }

  /** Containment is transitive: a string containing `b` contains everything
      `b` contains. */
  lemma ContainsTransitive(a: string, b: string, c: string)
    requires Contains(a, b) && Contains(b, c)
    ensures Contains(a, c)
  {
    var i :| 0 <= i <= |a| - |b| && OccursAt(a, b, i);
    var j :| 0 <= j <= |b| - |c| && OccursAt(b, c, j);
    forall k | 0 <= k < |c|
      ensures a[i + j + k] == c[k]
    {
      assert a[i..i + |b|][j + k] == b[j + k];
      assert b[j..j + |c|][k] == c[k];
    }
    assert a[i + j..i + j + |c|] == c;
    assert OccursAt(a, c, i + j);
  }

  /** Every string contains each of its prefixes. */
  lemma ContainsPrefix(s: string, p: string)
    requires p <= s
    ensures Contains(s, p)
  {
    assert OccursAt(s, p, 0);
  }

  /** An occurrence inside a prefix of `s` is an occurrence in `s`. */
  lemma OccursInPrefix(s: string, sub: string, k: int, j: int)
    requires 0 <= k <= |s|
    requires OccursAt(s[..k], sub, j)
    ensures OccursAt(s, sub, j) && j + |sub| <= k
  {
    assert s[..k][j..j + |sub|] == s[j..j + |sub|];
  }

  /** A string none of whose characters is `sub[0]` does not contain `sub`. */
  lemma AbsentFirstChar(s: string, sub: string)
    requires |sub| > 0 && sub[0] !in s
    ensures !Contains(s, sub)
  {
  }

  /** `Find` returns the leftmost occurrence and nothing else. */
  lemma FindIsFirst(s: string, sub: string, k: int)
    requires FirstOccurrence(s, sub, k)
    ensures Find(s, sub) == k
  {
    assert Contains(s, sub);
  }

  /** An occurrence at `k` is the leftmost one when no earlier character
      starts `sub`. */
  lemma FindAt(s: string, sub: string, k: int)
    requires |sub| > 0 && OccursAt(s, sub, k) && sub[0] !in s[..k]
    ensures Find(s, sub) == k
  {
    forall j | 0 <= j < k
      ensures !OccursAt(s, sub, j)
    {
      assert s[..k][j] == s[j];
      assert s[j..j + |sub|][0] == s[j];
    }
    FindIsFirst(s, sub, k);
  }

  /** A string that does not contain the one-character string `[c]` has no
      character `c`. */
  lemma AbsentChar(s: string, c: char)
    requires !Contains(s, [c])
    ensures forall j | 0 <= j < |s| :: s[j] != c
  {
    forall j | 0 <= j < |s|
      ensures s[j] != c
    {
      assert !OccursAt(s, [c], j);
      assert s[j..j + 1] == [s[j]];
    }
  }
}

=== FILE: splitting.dfy ===
/** Splitting on a separator, joining with a separator, and replace-all:
    Go's `strings.Split`/`strings.Join`/`strings.ReplaceAll` and Python's
    `str.split(sep)`/`str.join`/`str.replace`, which agree whenever the
    separator is non-empty. */
module Splitting {
  import opened Search

  /** `sep.join(parts)`: the parts with `sep` between neighbours. */
  function Join(parts: seq<string>, sep: string): (r: string)
    ensures |parts| > 0 ==> parts[0] <= r
  {
    if |parts| == 0 then ""
    else if |parts| == 1 then parts[0]
    else parts[0] + sep + Join(parts[1..], sep)
  }

  /** Joining a list given by its head and tail. */
  lemma JoinCons(head: string, tail: seq<string>, sep: string)
    ensures Join([head] + tail, sep) == if |tail| == 0 then head else head + sep + Join(tail, sep)
  {
    assert ([head] + tail)[1..] == tail;
  }

  /** Joining two non-empty lists is joining each and putting one separator
      between the halves. */
  lemma {:induction false} JoinAppend(a: seq<string>, b: seq<string>, sep: string)
    requires |a| > 0 && |b| > 0
    ensures Join(a + b, sep) == Join(a, sep) + sep + Join(b, sep)
    decreases |a|
  {
    JoinCons(a[0], a[1..] + b, sep);
    assert a + b == [a[0]] + (a[1..] + b);
    if |a| > 1 {
      JoinAppend(a[1..], b, sep);
      JoinCons(a[0], a[1..], sep);
      assert a == [a[0]] + a[1..];
    }
  }

  /** Every part occurs in the joined string. */
  lemma {:induction false} JoinContainsPart(parts: seq<string>, sep: string, i: int)
    requires 0 <= i < |parts|
    ensures Contains(Join(parts, sep), parts[i])
    decreases i
  {
    var joined := Join(parts, sep);
    if i == 0 {
      ContainsPrefix(joined, parts[0]);
    } else {
      JoinContainsPart(parts[1..], sep, i - 1);
      var tail := Join(parts[1..], sep);
      assert joined == (parts[0] + sep) + tail;
      var j :| 0 <= j <= |tail| - |parts[i]| && OccursAt(tail, parts[i], j);
      var d := |parts[0] + sep|;
      assert joined[d..] == tail;
      assert joined[d + j..d + j + |parts[i]|] == tail[j..j + |parts[i]|];
      assert OccursAt(joined, parts[i], d + j);
    }
  }

  /** `s.split(sep)` for a non-empty `sep`: cut `s` at every non-overlapping
      occurrence of `sep`, scanning left to right; empty pieces between
      adjacent separators are kept. */
  function Split(s: string, sep: string): (parts: seq<string>)
    requires |sep| > 0
    ensures |parts| >= 1
    ensures parts == [s] <==> !Contains(s, sep)
    decreases |s|, 1
  {
    SplitAt(s, sep, Find(s, sep))
  }

  /** The pieces of `s`, given where the first separator starts (-1: none). */
  function SplitAt(s: string, sep: string, k: int): (parts: seq<string>)
    requires |sep| > 0 && (k == -1 || OccursAt(s, sep, k))
    ensures |parts| >= 1
    ensures k != -1 ==> |parts| >= 2
    decreases |s|, 0
  {
    if k == -1 then [s] else [s[..k]] + Split(s[k + |sep|..], sep)
  }

  /** Whatever the leftmost separator is, the split cuts there first. */
  lemma SplitLeftmost(s: string, sep: string)
    requires |sep| > 0
    ensures forall k | FirstOccurrence(s, sep, k) ::
              Split(s, sep) == [s[..k]] + Split(s[k + |sep|..], sep)
  {
    forall k | FirstOccurrence(s, sep, k)
      ensures Split(s, sep) == [s[..k]] + Split(s[k + |sep|..], sep)
    {
      SplitFirst(s, sep, k);
    }
  }

  /** Go's split on an empty separator: one piece per rune. */
  function Explode(s: string): (parts: seq<string>)
    ensures |parts| == |s|
    ensures forall i | 0 <= i < |s| :: parts[i] == [s[i]]
  {
    seq(|s|, i requires 0 <= i < |s| => [s[i]])
  }

  /** Replacement of an empty target: `ins` before every character and at
      the end. */
  function InsertAround(s: string, ins: string): (r: string)
    ensures |ins| == 0 ==> r == s
    decreases |s|
  {
    if |s| == 0 then ins else ins + [s[0]] + InsertAround(s[1..], ins)
  }

  /** `ins` goes into each gap of `s`: before the first rune, between
      neighbours and after the last, which is joining the runes of `s`,
      framed by two empty pieces, with `ins`. */
  lemma InsertAroundGaps(s: string, ins: string)
    ensures InsertAround(s, ins) == Join([""] + (Explode(s) + [""]), ins)
  {
    InsertAroundRunes(s, ins);
    JoinCons("", Explode(s) + [""], ins);
  }

  /** InsertAroundGaps without its leading empty piece: one copy of `ins`,
      then each rune of `s` followed by a copy of `ins`. */
  lemma {:induction false} InsertAroundRunes(s: string, ins: string)
    ensures InsertAround(s, ins) == ins + Join(Explode(s) + [""], ins)
    decreases |s|
  {
    if |s| == 0 {
      assert Explode(s) + [""] == [""];
    } else {
      InsertAroundRunes(s[1..], ins);
      RunesCons(s, ins);
    }
  }

  /** The runes of a non-empty string and a final empty piece, joined: the
      first rune, a copy of `ins`, and the same join for the rest. */
  lemma RunesCons(s: string, ins: string)
    requires |s| > 0
    ensures Join(Explode(s) + [""], ins) == [s[0]] + ins + Join(Explode(s[1..]) + [""], ins)
  {
    var rest := Explode(s[1..]) + [""];
    ExplodeCons(s);
    assert Explode(s) + [""] == [[s[0]]] + rest;
    JoinCons([s[0]], rest, ins);
  }

  /** The runes of a non-empty string are its first rune's piece followed by
      the runes of the rest. */
  lemma ExplodeCons(s: string)
    requires |s| > 0
    ensures Explode(s) == [[s[0]]] + Explode(s[1..])
  {
  }

  /** One copy of `ins` goes into each of the `|s| + 1` gaps of `s`. */
  lemma {:induction false} InsertAroundLength(s: string, ins: string)
    ensures |InsertAround(s, ins)| == |s| + (|s| + 1) * |ins|
    decreases |s|
  {
    if |s| > 0 {
      InsertAroundLength(s[1..], ins);
      assert |InsertAround(s, ins)| == |ins| + 1 + |InsertAround(s[1..], ins)|;
      assert (|s| - 1 + 1) * |ins| + |ins| == (|s| + 1) * |ins|;
    }
  }

  /** `s.replace(target, replacement)` / `strings.ReplaceAll`: replace every
      non-overlapping occurrence, leftmost first. */
  function ReplaceAll(s: string, target: string, replacement: string): (r: string)
    ensures |target| > 0 && !Contains(s, target) ==> r == s
    ensures target == replacement ==> r == s
    decreases |s|, 1
  {
    if |target| == 0 then InsertAround(s, replacement)
    else ReplaceAt(s, target, replacement, Find(s, target))
  }

  /** The replacement in `s`, given where the first occurrence of a non-empty
      target starts (-1: none). */
  function ReplaceAt(s: string, target: string, replacement: string, k: int): (r: string)
    requires |target| > 0 && (k == -1 || OccursAt(s, target, k))
    ensures target == replacement ==> r == s
    decreases |s|, 0
  {
    if k == -1 then s
    else
      assert s == s[..k] + s[k..k + |target|] + s[k + |target|..];
      s[..k] + replacement + ReplaceAll(s[k + |target|..], target, replacement)
  }

  /** Replacing from the first occurrence of a non-empty target onwards. */
  lemma ReplaceFirst(s: string, target: string, replacement: string, k: int)
    requires |target| > 0 && FirstOccurrence(s, target, k)
    ensures ReplaceAll(s, target, replacement)
         == s[..k] + replacement + ReplaceAll(s[k + |target|..], target, replacement)
  {
    FindIsFirst(s, target, k);
  }

  /** A single occurrence, whose first character does not appear before it,
      is the only thing replaced. */
  lemma ReplaceOnce(before: string, target: string, after: string, replacement: string)
    requires |target| > 0 && target[0] !in before && !Contains(after, target)
    ensures ReplaceAll(before + target + after, target, replacement) == before + replacement + after
  {
    var s := before + target + after;
    var k := |before|;
    assert s[..k] == before && s[k..k + |target|] == target && s[k + |target|..] == after;
    FindAt(s, target, k);
    ReplaceFirst(s, target, replacement, k);
  }

  /** Splitting on `sep` and joining with `repl` is replacing `sep` by `repl`. */
  lemma {:induction false} SplitJoinIsReplace(s: string, sep: string, repl: string)
    requires |sep| > 0
    ensures Join(Split(s, sep), repl) == ReplaceAll(s, sep, repl)
    decreases |s|
  {
    var k := Find(s, sep);
    if k == -1 {
      assert Split(s, sep) == SplitAt(s, sep, k) == [s];
    } else {
      var head, rest := s[..k], s[k + |sep|..];
      var tail := Split(rest, sep);
      SplitJoinIsReplace(rest, sep, repl);
      JoinCons(head, tail, repl);
      calc {
        Join(Split(s, sep), repl);
        Join([head] + tail, repl);
        head + repl + Join(tail, repl);
        head + repl + ReplaceAll(rest, sep, repl);
        ReplaceAt(s, sep, repl, k);
      }
    }
  }

  /** Joining the pieces with the separator they were cut at gives back the
      original string. */
  lemma SplitRoundTrip(s: string, sep: string)
    requires |sep| > 0
    ensures Join(Split(s, sep), sep) == s
  {
    SplitJoinIsReplace(s, sep, sep);
  }

  /** Cutting at the first separator: the piece before it, then the pieces
      of the rest. */
  lemma SplitFirst(s: string, sep: string, k: int)
    requires |sep| > 0 && FirstOccurrence(s, sep, k)
    ensures Split(s, sep) == [s[..k]] + Split(s[k + |sep|..], sep)
  {
    FindIsFirst(s, sep, k);
  }

  /** Splitting on a one-character separator undoes joining with it, when no
      part contains that character. */
  lemma {:induction false} SplitJoinInverse(parts: seq<string>, c: char)
    requires |parts| >= 1
    requires forall i | 0 <= i < |parts| :: c !in parts[i]
    ensures Split(Join(parts, [c]), [c]) == parts
    decreases |parts|
  {
    var s := Join(parts, [c]);
    if |parts| == 1 {
      AbsentFirstChar(s, [c]);
    } else {
      var head, tail := parts[0], parts[1..];
      SplitJoinInverse(tail, c);
      assert parts == [head] + tail;
      JoinCons(head, tail, [c]);
      var k := |head|;
      assert s == head + [c] + Join(tail, [c]);
      assert s[..k] == head && s[k + 1..] == Join(tail, [c]);
      assert OccursAt(s, [c], k);
      FindAt(s, [c], k);
      SplitFirst(s, [c], k);
    }
  }

  /** The text before the first occurrence of `sep` does not contain it. */
  lemma FirstPieceFree(s: string, sep: string, k: int)
    requires |sep| > 0 && FirstOccurrence(s, sep, k)
    ensures !Contains(s[..k], sep)
  {
    if Contains(s[..k], sep) {
      var j :| 0 <= j <= k - |sep| && OccursAt(s[..k], sep, j);
      OccursInPrefix(s, sep, k, j);
    }
  }

  /** No piece of a split contains the separator. */
  lemma {:induction false} SplitPiecesFree(s: string, sep: string)
    requires |sep| > 0
    ensures forall p | p in Split(s, sep) :: !Contains(p, sep)
    decreases |s|
  {
    var k := Find(s, sep);
    if k != -1 {
      var rest := s[k + |sep|..];
      SplitPiecesFree(rest, sep);
      FirstPieceFree(s, sep, k);
      SplitFirst(s, sep, k);
      var parts := Split(s, sep);
      forall p | p in parts
        ensures !Contains(p, sep)
      {
        if p != s[..k] {
          assert p in Split(rest, sep);
        }
      }
    }
  }

  /** Joining one-rune pieces with nothing between them gives back `s`. */
  lemma {:induction false} ExplodeRoundTrip(s: string)
    ensures Join(Explode(s), "") == s
    decreases |s|
  {
    if |s| > 1 {
      ExplodeRoundTrip(s[1..]);
      assert Explode(s)[1..] == Explode(s[1..]);
    }
  }
}

=== FILE: utf8.dfy ===
/** Byte lengths of the UTF-8 encoding of code-point strings. Go strings are
    byte strings, so Go reports offsets in bytes where Python counts code
    points. */
module Utf8 {

  /** Number of bytes UTF-8 uses for `c`. */
  function Width(c: char): (w: nat)
    ensures 1 <= w <= 4
    ensures w == 1 <==> c as int < 0x80
  {
    if c as int < 0x80 then 1
    else if c as int < 0x800 then 2
    else if c as int < 0x1_0000 then 3
    else 4
  }

  predicate IsAscii(s: string) {
    forall k | 0 <= k < |s| :: s[k] as int < 0x80
  }

  /** Byte length of the UTF-8 encoding of `s`. */
  function Length(s: string): (n: nat)
    ensures |s| <= n <= 4 * |s|
    ensures IsAscii(s) ==> n == |s|
    decreases |s|
  {
    if |s| == 0 then 0 else Width(s[0]) + Length(s[1..])
  }
}

=== FILE: whitespace.dfy ===
/** Trimming leading and trailing whitespace: Go's `strings.TrimSpace` and
    Python's `str.strip()` with no argument. The two differ only in which
    characters count as whitespace. */
module Whitespace {

  /** Whose notion of whitespace applies. */
  datatype Flavour = GoTrimSpace | PythonStrip

  /** Go's `unicode.IsSpace`: the Unicode White_Space property. */
  predicate GoSpace(c: char) {
    || c == '\t' || c == '\n' || c == '\U{000B}' || c == '\U{000C}' || c == '\r'
    || c == ' ' || c == '\U{0085}' || c == '\U{00A0}' || c == '\U{1680}'
    || ('\U{2000}' <= c <= '\U{200A}')
    || c == '\U{2028}' || c == '\U{2029}' || c == '\U{202F}' || c == '\U{205F}'
    || c == '\U{3000}'
  }

  /** The ASCII information separators U+001C..U+001F, which Python's
      `str.isspace` counts as whitespace and Go does not. */
  predicate InformationSeparator(c: char) {
    '\U{001C}' <= c <= '\U{001F}'
  }

  predicate IsSpace(f: Flavour, c: char) {
    GoSpace(c) || (f == PythonStrip && InformationSeparator(c))
  }

  predicate AllSpace(s: string, f: Flavour) {
    forall k | 0 <= k < |s| :: IsSpace(f, s[k])
  }

  /** Neither end of `s` is whitespace. */
  predicate Trimmed(s: string, f: Flavour) {
    |s| > 0 ==> !IsSpace(f, s[0]) && !IsSpace(f, s[|s| - 1])
  }

  /** `r` is the slice `s[i..j]`, everything cut off is whitespace and what
      remains has no whitespace at either end. */
  predicate IsTrimOf(s: string, r: string, i: int, j: int, f: Flavour) {
    && 0 <= i <= j <= |s|
    && r == s[i..j]
    && AllSpace(s[..i], f)
    && AllSpace(s[j..], f)
    && Trimmed(r, f)
  }

  /** Length of the longest all-whitespace prefix. */
  function LeadingSpace(s: string, f: Flavour): (n: nat)
    ensures n <= |s|
    ensures AllSpace(s[..n], f)
    ensures n < |s| ==> !IsSpace(f, s[n])
    decreases |s|
  {
    if |s| > 0 && IsSpace(f, s[0]) then 1 + LeadingSpace(s[1..], f) else 0
  }

  /** Start of the longest all-whitespace suffix. */
  function TrailingSpaceStart(s: string, f: Flavour): (m: nat)
    ensures m <= |s|
    ensures AllSpace(s[m..], f)
    ensures 0 < m ==> !IsSpace(f, s[m - 1])
    decreases |s|
  {
    if |s| > 0 && IsSpace(f, s[|s| - 1]) then TrailingSpaceStart(s[..|s| - 1], f) else |s|
  }

  /** `strings.TrimSpace(s)` / `s.strip()`. */
  function Strip(s: string, f: Flavour): (r: string)
    ensures Trimmed(r, f)
    ensures exists i, j :: IsTrimOf(s, r, i, j, f)
  {
    var i := LeadingSpace(s, f);
    var m := TrailingSpaceStart(s[i..], f);
    assert s[i..][..m] == s[i..i + m];
    assert s[i..][m..] == s[i + m..];
    assert IsTrimOf(s, s[i..i + m], i, i + m, f);
    s[i..i + m]
  }

  /** Two trims of the same string are the same slice. */
  lemma TrimUnique(s: string, r1: string, i1: int, j1: int, r2: string, i2: int, j2: int, f: Flavour)
    requires IsTrimOf(s, r1, i1, j1, f) && IsTrimOf(s, r2, i2, j2, f)
    ensures r1 == r2
  {
    if i1 == j1 || i2 == j2 {
      // one trim is empty, so every character of `s` is whitespace
      var i := if i1 == j1 then i1 else i2;
      var j := if i1 == j1 then j1 else j2;
      forall k | 0 <= k < |s|
        ensures IsSpace(f, s[k])
      {
        if k < i {
          assert s[..i][k] == s[k];
        } else {
          assert s[j..][k - j] == s[k];
        }
      }
    } else {
      assert r1[0] == s[i1] && r2[0] == s[i2];
      assert r1[|r1| - 1] == s[j1 - 1] && r2[|r2| - 1] == s[j2 - 1];
    }
  }

  /** Any slice meeting the trim conditions is the result of `Strip`. */
  lemma StripCharacterized(s: string, r: string, i: int, j: int, f: Flavour)
    requires IsTrimOf(s, r, i, j, f)
    ensures Strip(s, f) == r
  {
    var t := Strip(s, f);
    var i', j' :| IsTrimOf(s, t, i', j', f);
    TrimUnique(s, r, i, j, t, i', j', f);
  }

  /** Stripping twice is stripping once. */
  lemma StripIdempotent(s: string, f: Flavour)
    ensures Strip(Strip(s, f), f) == Strip(s, f)
  {
    var r := Strip(s, f);
    assert r[0..|r|] == r;
    StripCharacterized(r, r, 0, |r|, f);
  }

  /** On text without information separators the Go and Python trims agree. */
  lemma StripFlavoursAgree(s: string)
    requires forall k | 0 <= k < |s| :: !InformationSeparator(s[k])
    ensures Strip(s, GoTrimSpace) == Strip(s, PythonStrip)
  {
    var r := Strip(s, PythonStrip);
    var i, j :| IsTrimOf(s, r, i, j, PythonStrip);
    assert forall k | 0 <= k < i :: s[..i][k] == s[k];
    assert forall k | 0 <= k < |s| - j :: s[j..][k] == s[j + k];
    assert IsTrimOf(s, r, i, j, GoTrimSpace);
    StripCharacterized(s, r, i, j, GoTrimSpace);
  }
}
